=== FILE: README.md ===
# MTP/PTP transport over a USB bulk pipe

A Dafny model of the transport core of android-file-transfer-linux
(`mtp/ptp/Device.cpp`). The core consists of:

- `PipePacketer`, the framing layer. It forwards request containers to the
  bulk pipe. It reads one length-prefixed message from one or more frames;
  only a message that arrives in a single frame is read back exactly (see
  below). It drops replies to other transactions. When a reply is a data container,
  it reads the response that follows it. It also polls the interrupt endpoint
  for events.
- `Device`, which issues GetDeviceInfo and OpenSession.
- `Device::Find`, which walks the USB device tree for the first interface
  named "MTP" or of class 6, subclass 1.

Layout:

| file | module | what it holds |
|---|---|---|
| `bytes.dfy` | `Bytes` | octets, little-endian u16/u32 fields |
| `errors.dfy` | `Errors` | `Option`, `Result` and the error kinds that stand for the C++ exceptions |
| `pipe.dfy` | `UsbPipe` | the bulk pipe: queues of frames on bulk-in and interrupt-in, a log of bulk-out writes |
| `reassembly.dfy` | `Reassembly` | `ReadMessage`'s loop body (`Absorb`), its run over the pending frames (`ReadMessageSpec`), and its closed form |
| `correlation.dfy` | `Correlation` | the response header, the transaction filter (`Correlate`), the interrupt check (`EventPoll`) |
| `packeter.dfy` | `Packeter` | class `PipePacketer` with imperative `Write`, `ReadMessage`, `PollEvent`, `Read` |
| `device.dfy` | `Ptp` | class `Device` with `GetDeviceInfo`, `OpenSession` |
| `discovery.dfy` | `Discovery` | `Find` over a device tree given as data |

Each method of `PipePacketer` follows the source statement by statement. For
example, `ReadMessage` keeps the resized `result` buffer as an `array`. Each
method's postcondition ties its result and the pipe left behind to a function:
`ReadMessageSpec`, `Correlate` or `EventPoll`. The lemmas about those
functions state what the source promises.

Exceptions become `Err` values:

- A bulk read that gets no frame gives `Timeout`.
- An input stream that runs dry gives `ShortRead`.
- A length prefix below 4 gives `InvalidSize`.
- A non-event interrupt container gives `NotAnEvent`.
- A copy past the end of the buffer gives `Overrun`. In C++ that copy is undefined behaviour.

The pipe is modelled as the frames the device will deliver. Every read
consumes one frame. A queue that runs out stands for a read that times out.

## Model

| member | source | states |
|---|---|---|
| UsbPipe.BulkPipe.Read | mtp/ptp/Device.cpp:71 | a bulk read consumes the frame at the head of the queue, or times out when there is none |
| UsbPipe.BulkPipe.ReadInterrupt | mtp/ptp/Device.cpp:98 | an interrupt read consumes the pending frame, or yields an empty frame when nothing is pending |
| UsbPipe.BulkPipe.Write | mtp/ptp/Device.cpp:60 | a bulk write appends the buffer to what the device received, touching neither input queue |
| Reassembly.ReadMessageSpec | mtp/ptp/Device.cpp:63-94 | an empty pipe times out; a first frame of fewer than 4 bytes is a short read; a length prefix below 4 is an invalid size; each error costs exactly one frame |
| Reassembly.Run | mtp/ptp/Device.cpp:69-91 | the loop reads at most the frames there are, at least one when there is one, and a time-out means every frame was read |
| Reassembly.Absorb | mtp/ptp/Device.cpp:71-90 | one pass of the loop body fails only on a bad length prefix while `size` is unparsed (short read, invalid size) or with an overrun when `offset` is already past the buffer; otherwise the buffer has `L - 4` bytes for the prefix `L`, and the pass stops exactly when `offset` plus the frame reaches its end. `AbsorbStart`, `AbsorbAfterPrefix` and `SentinelReparse` state its cases, and `Packeter.AbsorbFrame` is proved equal to it |
| Reassembly.CopyCount | mtp/ptp/Device.cpp:86 | `src_n` never takes more than the payload, and stays within the buffer whenever `offset` has not passed its end; the wrapped case is `Deliver`'s `Overrun` |
| Reassembly.AbsorbStart | mtp/ptp/Device.cpp:72-90 | on the first frame the buffer becomes `L - 4` zeros with the payload copied at 0, and `offset` becomes the whole frame length, prefix included; the loop stops when that reaches `L - 4` |
| Reassembly.AbsorbAfterPrefix | mtp/ptp/Device.cpp:82-90 | on a later frame the payload is copied at `offset` with no prefix skipped, and `offset` advances by the frame length |
| Reassembly.ReassemblyLayout | mtp/ptp/Device.cpp:63-94 | with a prefix `L` (at least 4, not `~0u`), the read consumes exactly the `n` frames whose total size first reaches `L - 4`, and returns the first `L - 4` bytes of: the first frame's payload, four zero bytes standing for the counted prefix, then the later frames |
| Reassembly.ReassemblyTimeout | mtp/ptp/Device.cpp:69-71 | when all frames together stay below `L - 4` bytes, the read times out after consuming all of them |
| Reassembly.RunKeepsSize | mtp/ptp/Device.cpp:82-90 | once a proper prefix is parsed, the loop ends in a message of exactly `size - 4` bytes or a time-out |
| Reassembly.MessageLength | mtp/ptp/Device.cpp:75-90 | a prefix `L` other than `~0u` yields a message of `L - 4` bytes or a time-out: never a short read, an invalid size or an overrun |
| Reassembly.SingleFrame | mtp/ptp/Device.cpp:74-90 | a frame that holds the whole container gives `frame[4..L)` after one read |
| Reassembly.EmptyContainer | mtp/ptp/Device.cpp:77-90 | a prefix of exactly 4 gives an empty message after one read |
| Reassembly.ZeroPadded | mtp/ptp/Device.cpp:86-90 | a first frame up to four bytes short of the container completes the read, and the missing bytes read as zeros, because `offset` counts the prefix |
| Reassembly.Framed | mtp/ptp/Device.cpp:74-75 | a container is its length prefix, which reads back as the payload length plus 4, then the payload |
| Reassembly.FramedRoundTrip | mtp/ptp/Device.cpp:63-94 | a container sent as one frame is read back as exactly its payload, in one read |
| Reassembly.Shifted | mtp/ptp/Device.cpp:86-88 | the message read from a container split after `cut` payload bytes: the bytes before the cut, four zeros, then the rest shifted by four |
| Reassembly.SplitContainer | mtp/ptp/Device.cpp:86-90 | a container split into two frames after `cut` payload bytes reads as `Shifted`; when the first part already reaches `L - 4` bytes, the read stops after one frame and leaves the rest in the pipe |
| Reassembly.SplitCorrupts | mtp/ptp/Device.cpp:86-88 | such a split container is not read back as its payload when the byte at the cut is not zero |
| Reassembly.SentinelReparse | mtp/ptp/Device.cpp:66-90 | a prefix equal to `~0u` leaves `size` unparsed, so the next frame is parsed as a length prefix `L'` again. That second prefix fails as a short read or as an invalid size, or with an overrun when it is below what was already counted and the frame carries payload bytes; a bare 4-byte prefix there ends the read after two frames with the first `L' - 4` bytes already buffered, the first frame's payload followed by four zeros. Otherwise, unless it is `~0u` too, the read goes on silently and ends in a message of that prefix minus 4 bytes, or a time-out, after at least two frames |
| Correlation.ParseHeader | mtp/ptp/Device.cpp:136-137 | the header is read exactly when the message has at least eight bytes; otherwise the stream runs dry |
| Correlation.HeaderRoundTrip | mtp/ptp/Device.cpp:136-137 | the container type, code and transaction are read back from any message that starts with their encoding |
| Correlation.Complete | mtp/ptp/Device.cpp:144-152 | an accepted data container becomes `data` and needs one more message as `response`; any other container is the `response`, with empty `data` and no further read |
| Correlation.Correlate | mtp/ptp/Device.cpp:130-152 | the read never consumes more frames than the pipe holds |
| Correlation.CorrelateAccepts | mtp/ptp/Device.cpp:134-152 | every reply read without `ignoreTransaction` was accepted on a message of the expected transaction, and it has data exactly when that message is a data container |
| Correlation.IgnoreAcceptsFirst | mtp/ptp/Device.cpp:138-139 | with `ignoreTransaction` the first message is accepted, whatever transaction it carries |
| Correlation.DropsFirst | mtp/ptp/Device.cpp:138-141 | a message of another transaction is dropped and reading goes on with the next |
| Correlation.AcceptsFirst | mtp/ptp/Device.cpp:138-152 | a message of the expected transaction ends the read, with the following message as response when it is a data container |
| Correlation.SkipsStale | mtp/ptp/Device.cpp:130-152 | the `k` messages of other transactions before the first of the expected one are consumed and never appear in the reply; the reply is that message, completed by the next when it is a data container |
| Correlation.NoMatchTimesOut | mtp/ptp/Device.cpp:132-142 | when no message carries the expected transaction, every one is dropped and the read times out once the pipe is drained |
| Correlation.EventPoll | mtp/ptp/Device.cpp:96-117 | an empty interrupt frame is no event; an event is reported exactly when sixteen bytes are there and the type field is the event type |
| Correlation.EventRoundTrip | mtp/ptp/Device.cpp:103-115 | an interrupt container is reported as its event code when it is an event, and rejected as "not an event" otherwise, whatever follows its header |
| Packeter.PipePacketer.Write | mtp/ptp/Device.cpp:57-61 | the request is forwarded verbatim as one bulk write |
| Packeter.Resize | mtp/ptp/Device.cpp:80 | `result.resize(n)` keeps the first bytes and zero-fills the growth |
| Packeter.CopyInto | mtp/ptp/Device.cpp:87 | `std::copy` overwrites exactly the window at `offset` |
| Packeter.AbsorbFrame | mtp/ptp/Device.cpp:71-90 | one pass of the loop body computes exactly `Absorb`, with the buffer updated in place or fresh after a resize |
| Packeter.PipePacketer.ReadMessage | mtp/ptp/Device.cpp:63-94 | returns `ReadMessageSpec` of the frames pending before the call and leaves exactly the frames it did not read |
| Packeter.PipePacketer.PollEvent | mtp/ptp/Device.cpp:96-117 | consumes at most one interrupt frame and reports `EventPoll` of it; the bulk pipe is untouched |
| Packeter.PipePacketer.Read | mtp/ptp/Device.cpp:120-155 | polls the interrupt endpoint once and swallows whatever it finds; the reply and the frames left on the bulk pipe are those of `Correlate` |
| Ptp.DeviceInfoPayload | mtp/ptp/Device.cpp:39-41 | the device-info decoder receives the data phase past its eight header bytes; errors propagate, and a shorter data phase is a short read |
| Ptp.Device.GetDeviceInfo | mtp/ptp/Device.cpp:30-43 | writes the request, reads the reply for transaction 0 ignoring transactions, and returns its payload |
| Ptp.DeviceInfoReply | mtp/ptp/Device.cpp:30-43 | a data container and its response give back the payload after the header, whatever transaction the device used, after two frames |
| Ptp.Device.OpenSession | mtp/ptp/Device.cpp:45-55 | writes the request, reads the reply ignoring transactions, and returns a session carrying the requested id whenever a reply was read |
| Ptp.OpenSessionAnyStatus | mtp/ptp/Device.cpp:45-55 | any reply is accepted, whatever its status code and transaction, so the session is made |
| Discovery.Find | mtp/ptp/Device.cpp:157-200 | returns the first interface in device, configuration, interface order that is on a device which opens and is named "MTP" (with a nonzero name index) or has class 6, subclass 1; returns none exactly when there is no such interface |

## Behaviour of the code worth knowing

- A message split over several frames is not reassembled exactly. The code
  counts each frame's full size into `offset`, the first frame's four prefix
  bytes included. A split container therefore reads with four zero bytes at
  the cut and the rest shifted by four (`ReassemblyLayout`, `SplitContainer`,
  `SplitCorrupts`). Only a message that arrives in a single frame is read back
  exactly (`SingleFrame`, `FramedRoundTrip`).
- The response header is container type (u16), code (u16) and transaction
  (u32) after the length prefix, the generic container layout of PTP. This is
  why `GetDeviceInfo` skips eight bytes before the device-info payload.
- Of several messages of the expected transaction, the first is accepted, and
  the messages of other transactions before it are dropped (`SkipsStale`).

## Left out

- Timeouts are not modelled as durations. A bulk read with no frame pending stands for one that timed out or failed.
- The encoding of requests (`OperationRequest`, `Container`) is not part of this model. `GetDeviceInfo` and `OpenSession` take the encoded request as a parameter.
- Decoding of `DeviceInfo` is not part of this model. `GetDeviceInfo` returns the bytes the decoder would read.
- `Response::Read` is not part of this model. Its layout is the one described above.
- The input stream is assumed to throw on reading past the end, which is modelled as `ShortRead`.
- Packeter.PipePacketer.ReadMessage: `offset` is an unbounded `nat`. The model does not capture `size_t` wrap-around of `offset` itself, which needs 2^64 bytes of frames.
- Packeter.AbsorbFrame: the copy is skipped when `src_n` is 0, since `std::copy` of nothing is a no-op. A resize is modelled as a fresh array holding the kept bytes, not as reallocation inside the vector.
- Packeter.PipePacketer.Read: the out-parameters `data` and `response` are returned as one `Reply` value. Their contents after an exception (both cleared, or `data` already holding the data container when the trailing response read fails) are not modelled.
- Packeter.PipePacketer.Read: the unbounded retry on a transaction mismatch ends in a time-out once the finite queue of frames is drained.
- Reassembly.SentinelReparse: a `~0u` prefix makes the code call `result.resize(0xFFFFFFFB)`, a 4 GiB zero-filled buffer. The model assumes this allocation succeeds; a `std::bad_alloc` thrown instead is not modelled.
- Packeter.PipePacketer.Write: a bulk write that fails or times out is not modelled; every write succeeds. In the source the exception from `_pipe->Write` propagates out of `GetDeviceInfo` and `OpenSession` before any read; the model always goes on to read.
- Diagnostics (`HexDump`, `fprintf`) are left out. They have no effect on results.
- Discovery.Find: USB enumeration, opening a device, and resolving a string descriptor are given as data. A failing `GetString` is not modelled.
- Discovery.Find returns the (device, configuration, interface) triple rather than constructing the bulk pipe and `Device` for it. Devices that open but are rejected are not closed in the source; handle release is not modelled.
- Sessions are values carrying the pipe and the session id. Session close and later operations belong to other parts of the repository.

=== FILE: bytes.dfy ===
/** Byte-level vocabulary of the transport: bytes, the unsigned field widths the
    wire format uses, and little-endian field extraction as PTP prescribes. */
module Bytes {

  /** An octet, as `u8` in the source. */
  type byte = x: int | 0 <= x < 0x100

  /** One raw frame: the bytes delivered by a single read on a pipe. */
  type Frame = seq<byte>

  type u16 = x: int | 0 <= x < 0x1_0000
  type u32 = x: int | 0 <= x < 0x1_0000_0000

  /** The little-endian u16 stored at `s[i..i+2]`. */
  function Le16At(s: seq<byte>, i: nat): (v: u16)
    requires i + 2 <= |s|
  {
    s[i] as int + 0x100 * (s[i + 1] as int)
  }

  /** The little-endian u32 stored at `s[i..i+4]`. */
  function Le32At(s: seq<byte>, i: nat): (v: u32)
    requires i + 4 <= |s|
  {
    Le16At(s, i) + 0x1_0000 * Le16At(s, i + 2)
  }

  /** Little-endian encoding of a u16; reading it back gives the value. */
  function Le16Bytes(v: u16): (b: seq<byte>)
    ensures |b| == 2 && Le16At(b, 0) == v
  {
    [v % 0x100, v / 0x100]
  }

  /** Little-endian encoding of a u32; reading it back gives the value. */
  function Le32Bytes(v: u32): (b: seq<byte>)
    ensures |b| == 4 && Le32At(b, 0) == v
  {
    var lo, hi := Le16Bytes(v % 0x1_0000), Le16Bytes(v / 0x1_0000);
    assert Le16At(lo + hi, 0) == Le16At(lo, 0);
    assert Le16At(lo + hi, 2) == Le16At(hi, 0);
    lo + hi
  }

  /** A fresh, zero-filled buffer, as `std::vector::resize` produces. */
  function Zeros(n: nat): (z: seq<byte>)
    ensures |z| == n
  {
    seq(n, _ => 0)
  }

  /** A field of `a + b` that lies inside `a` reads as in `a`. */
  lemma Le16Concat(a: seq<byte>, b: seq<byte>, i: nat)
    requires i + 2 <= |a|
    ensures Le16At(a + b, i) == Le16At(a, i)
  {
    assert (a + b)[i] == a[i] && (a + b)[i + 1] == a[i + 1];
  }

  lemma Le32Concat(a: seq<byte>, b: seq<byte>, i: nat)
    requires i + 4 <= |a|
    ensures Le32At(a + b, i) == Le32At(a, i)
  {
    Le16Concat(a, b, i);
    Le16Concat(a, b, i + 2);
  }

  /** A field of `a + b` that lies inside `b` reads as in `b`. */
  lemma Le16Shift(a: seq<byte>, b: seq<byte>, j: nat)
    requires j + 2 <= |b|
    ensures Le16At(a + b, |a| + j) == Le16At(b, j)
  {
    assert (a + b)[|a| + j] == b[j] && (a + b)[|a| + j + 1] == b[j + 1];
  }

  lemma Le32Shift(a: seq<byte>, b: seq<byte>, j: nat)
    requires j + 4 <= |b|
    ensures Le32At(a + b, |a| + j) == Le32At(b, j)
  {
    Le16Shift(a, b, j);
    Le16Shift(a, b, j + 2);
  }
}

=== FILE: correlation.dfy ===
/** What `PipePacketer::Read` and `PipePacketer::PollEvent` compute: the
    container header, the transaction filter over the reassembled messages and
    the split into a data phase and a response, and the check of an interrupt
    frame. */
module Correlation {
  import opened Bytes
  import opened Errors
  import opened Reassembly

  /** The container types the read path tells apart. */
  const DataContainer: u16 := 2
  const EventContainer: u16 := 4

  /** The fields `Response::Read` takes from the front of a message (the
      length prefix is already gone): container type, code, transaction. */
  datatype Header = Header(containerType: u16, code: u16, transaction: u32)

  /** Reading the header off a message; the input stream runs dry on fewer
      than eight bytes. */
  function ParseHeader(message: seq<byte>): (r: Result<Header>)
    ensures r.Ok? <==> |message| >= 8
    ensures r.Err? ==> r.error == ShortRead
  {
    if |message| < 8 then Err(ShortRead)
    else Ok(Header(Le16At(message, 0), Le16At(message, 2), Le32At(message, 4)))
  }

  /** The eight header bytes a device puts in front of a message's payload. */
  function EncodeHeader(h: Header): (b: seq<byte>)
    ensures |b| == 8
  {
    Le16Bytes(h.containerType) + Le16Bytes(h.code) + Le32Bytes(h.transaction)
  }

  /** The header is read back from any message that starts with it. */
  lemma HeaderRoundTrip(h: Header, payload: seq<byte>)
    ensures ParseHeader(EncodeHeader(h) + payload) == Ok(h)
  {
    var a, b, c := Le16Bytes(h.containerType), Le16Bytes(h.code), Le32Bytes(h.transaction);
    var x := EncodeHeader(h) + payload;
    assert x == a + (b + (c + payload));
    Le16Concat(a, b + (c + payload), 0);
    Le16Shift(a, b + (c + payload), 0);
    Le16Concat(b, c + payload, 0);
    Le32Shift(a, b + (c + payload), 2);
    Le32Shift(b, c + payload, 0);
    Le32Concat(c, payload, 0);
  }

  /** What `Read` hands back: the data phase (empty when there is none) and
      the response message. */
  datatype Reply = Reply(data: seq<byte>, response: seq<byte>)

  /** The reply (or failure) and how many frames were read to get it. */
  datatype Exchange = Exchange(outcome: Result<Reply>, consumed: nat)

  /** The message `Read` accepted: the data phase when there is one, else the response. */
  function Accepted(reply: Reply): seq<byte>
  {
    if reply.data != [] then reply.data else reply.response
  }

  /** After accepting `message` with header `h`: a data container is followed
      by one more message, the response; any other container is the response. */
  function Complete(message: seq<byte>, h: Header, after: seq<Frame>): (x: Exchange)
    ensures x.consumed <= |after|
    ensures x.outcome.Ok? && h.containerType == DataContainer ==> x.outcome.value.data == message
    ensures x.outcome.Ok? && h.containerType != DataContainer ==> x.outcome.value == Reply([], message)
    ensures h.containerType != DataContainer ==> x.outcome.Ok? && x.consumed == 0
  {
    if h.containerType == DataContainer then
      var next := ReadMessageSpec(after);
      match next.outcome
      case Err(e) => Exchange(Err(e), next.consumed)
      case Ok(response) => Exchange(Ok(Reply(message, response)), next.consumed)
    else
      Exchange(Ok(Reply([], message)), 0)
  }

  /** `Read` on a bulk pipe whose pending frames are `frames` (the interrupt
      poll aside): messages whose transaction differs from the expected one are
      dropped unless `ignoreTransaction` is set. */
  function Correlate(frames: seq<Frame>, transaction: u32, ignoreTransaction: bool): (x: Exchange)
    ensures x.consumed <= |frames|
    decreases |frames|
  {
    var first := ReadMessageSpec(frames);
    match first.outcome
    case Err(e) => Exchange(Err(e), first.consumed)
    case Ok(message) =>
      match ParseHeader(message)
      case Err(e) => Exchange(Err(e), first.consumed)
      case Ok(h) =>
        if ignoreTransaction || h.transaction == transaction then
          var done := Complete(message, h, frames[first.consumed..]);
          Exchange(done.outcome, first.consumed + done.consumed)
        else
          var later := Correlate(frames[first.consumed..], transaction, ignoreTransaction);
          Exchange(later.outcome, first.consumed + later.consumed)
  }

  /** `Read` part-way through: `pending` is what is left of `frames`, and
      correlating from there ends as correlating from the start does. */
  ghost predicate Reading(frames: seq<Frame>, pending: seq<Frame>, transaction: u32, ignoreTransaction: bool)
  {
    && |pending| <= |frames| && pending == frames[|frames| - |pending|..]
    && var rest := Correlate(pending, transaction, ignoreTransaction);
       Correlate(frames, transaction, ignoreTransaction) ==
         Exchange(rest.outcome, rest.consumed + (|frames| - |pending|))
  }

  lemma ReadingStart(frames: seq<Frame>, transaction: u32, ignoreTransaction: bool)
    ensures Reading(frames, frames, transaction, ignoreTransaction)
  {
  }

  /** A message that cannot be read or whose header cannot be parsed ends `Read`. */
  lemma ReadingFails(frames: seq<Frame>, pending: seq<Frame>, transaction: u32, ignoreTransaction: bool)
    requires Reading(frames, pending, transaction, ignoreTransaction)
    requires var first := ReadMessageSpec(pending);
      first.outcome.Err? || ParseHeader(first.outcome.value).Err?
    ensures var first := ReadMessageSpec(pending);
      var x := Correlate(frames, transaction, ignoreTransaction);
      && x.outcome == (if first.outcome.Err? then Err(first.outcome.error) else Err(ShortRead))
      && frames[x.consumed..] == pending[first.consumed..]
  {
    var k := |frames| - |pending|;
    assert frames[k..][ReadMessageSpec(pending).consumed..] == frames[k + ReadMessageSpec(pending).consumed..];
  }

  /** A message of another transaction is dropped and `Read` goes on. */
  lemma ReadingDrops(frames: seq<Frame>, pending: seq<Frame>, transaction: u32, ignoreTransaction: bool)
    requires Reading(frames, pending, transaction, ignoreTransaction)
    requires var first := ReadMessageSpec(pending);
      && first.outcome.Ok? && ParseHeader(first.outcome.value).Ok?
      && !(ignoreTransaction || ParseHeader(first.outcome.value).value.transaction == transaction)
    ensures Reading(frames, pending[ReadMessageSpec(pending).consumed..], transaction, ignoreTransaction)
  {
    var k, c := |frames| - |pending|, ReadMessageSpec(pending).consumed;
    assert frames[k..][c..] == frames[k + c..];
  }

  /** An accepted message is completed from the frames after it. */
  lemma ReadingAccepts(frames: seq<Frame>, pending: seq<Frame>, transaction: u32, ignoreTransaction: bool)
    requires Reading(frames, pending, transaction, ignoreTransaction)
    requires var first := ReadMessageSpec(pending);
      && first.outcome.Ok? && ParseHeader(first.outcome.value).Ok?
      && (ignoreTransaction || ParseHeader(first.outcome.value).value.transaction == transaction)
    ensures var first := ReadMessageSpec(pending);
      var after := pending[first.consumed..];
      var done := Complete(first.outcome.value, ParseHeader(first.outcome.value).value, after);
      var x := Correlate(frames, transaction, ignoreTransaction);
      x.outcome == done.outcome && frames[x.consumed..] == after[done.consumed..]
  {
    var k, c := |frames| - |pending|, ReadMessageSpec(pending).consumed;
    var after := pending[c..];
    var d := Complete(ReadMessageSpec(pending).outcome.value, ParseHeader(ReadMessageSpec(pending).outcome.value).value, after).consumed;
    assert frames[k..][c..][d..] == frames[k + c + d..];
  }

  /** Completing a data container reads the response message after it. */
  lemma CompleteData(message: seq<byte>, h: Header, after: seq<Frame>)
    requires h.containerType == DataContainer
    ensures var next := ReadMessageSpec(after);
      var done := Complete(message, h, after);
      && done.consumed == next.consumed
      && done.outcome == (if next.outcome.Err? then Err(next.outcome.error) else Ok(Reply(message, next.outcome.value)))
  {
  }

  /** Every reply `Read` returns without `ignoreTransaction` was accepted on a
      message of the expected transaction, and it has a data phase exactly
      when that message is a data container. */
  lemma {:induction false} CorrelateAccepts(frames: seq<Frame>, transaction: u32)
    ensures var x := Correlate(frames, transaction, false);
      x.outcome.Ok? ==>
        && ParseHeader(Accepted(x.outcome.value)).Ok?
        && ParseHeader(Accepted(x.outcome.value)).value.transaction == transaction
        && (x.outcome.value.data != [] <==> ParseHeader(Accepted(x.outcome.value)).value.containerType == DataContainer)
    decreases |frames|
  {
    var first := ReadMessageSpec(frames);
    if first.outcome.Ok? && ParseHeader(first.outcome.value).Ok? {
      var h := ParseHeader(first.outcome.value).value;
      if h.transaction != transaction {
        CorrelateAccepts(frames[first.consumed..], transaction);
      }
    }
  }

  /** With `ignoreTransaction` the first message is accepted whatever its
      transaction: the result is the one for that message's own transaction. */
  lemma IgnoreAcceptsFirst(frames: seq<Frame>, transaction: u32)
    requires ReadMessageSpec(frames).outcome.Ok?
    requires ParseHeader(ReadMessageSpec(frames).outcome.value).Ok?
    ensures Correlate(frames, transaction, true) ==
      Correlate(frames, ParseHeader(ReadMessageSpec(frames).outcome.value).value.transaction, false)
  {
  }

  // ---------------------------------------------------------------------------
  // Messages sent one per frame

  /** Every message fits a container whose length is a u32. */
  predicate Sendable(msgs: seq<seq<byte>>)
  {
    forall i | 0 <= i < |msgs| :: |msgs[i]| + 4 < 0x1_0000_0000
  }

  /** The frames a device produces sending each message as one container. */
  function Transmit(msgs: seq<seq<byte>>): (frames: seq<Frame>)
    requires Sendable(msgs)
    ensures |frames| == |msgs|
  {
    if msgs == [] then [] else [Framed(msgs[0])] + Transmit(msgs[1..])
  }

  /** The first transmitted message is read back in one frame. */
  lemma ReadTransmitted(msgs: seq<seq<byte>>)
    requires Sendable(msgs) && msgs != []
    ensures ReadMessageSpec(Transmit(msgs)) == Reassembled(Ok(msgs[0]), 1)
    ensures Transmit(msgs)[1..] == Transmit(msgs[1..])
  {
    FramedRoundTrip(msgs[0], Transmit(msgs[1..]));
  }

  /** A transmitted message of another transaction is dropped. */
  lemma DropsFirst(msgs: seq<seq<byte>>, t: u32)
    requires Sendable(msgs) && msgs != [] && |msgs[0]| >= 8
    requires ParseHeader(msgs[0]).value.transaction != t
    ensures var later := Correlate(Transmit(msgs[1..]), t, false);
      Correlate(Transmit(msgs), t, false) == Exchange(later.outcome, later.consumed + 1)
  {
    ReadTransmitted(msgs);
  }

  /** A transmitted message of the expected transaction is accepted. */
  lemma AcceptsFirst(msgs: seq<seq<byte>>, t: u32)
    requires Sendable(msgs) && msgs != [] && |msgs[0]| >= 8
    requires ParseHeader(msgs[0]).value.transaction == t
    ensures var h := ParseHeader(msgs[0]).value;
      Correlate(Transmit(msgs), t, false) ==
        if h.containerType != DataContainer then Exchange(Ok(Reply([], msgs[0])), 1)
        else if 1 < |msgs| then Exchange(Ok(Reply(msgs[0], msgs[1])), 2)
        else Exchange(Err(Timeout), 1)
  {
    ReadTransmitted(msgs);
    if 1 < |msgs| {
      ReadTransmitted(msgs[1..]);
    }
  }

  /** Reading for transaction `t` drops the `k` messages of other transactions
      in front of the first one of `t` and returns that one, completed by the
      message after it when it is a data container. */
  lemma {:induction false} SkipsStale(msgs: seq<seq<byte>>, t: u32, k: nat)
    requires Sendable(msgs) && k < |msgs|
    requires forall i | 0 <= i <= k :: |msgs[i]| >= 8
    requires forall i | 0 <= i < k :: ParseHeader(msgs[i]).value.transaction != t
    requires ParseHeader(msgs[k]).value.transaction == t
    ensures var h := ParseHeader(msgs[k]).value;
      Correlate(Transmit(msgs), t, false) ==
        if h.containerType != DataContainer then Exchange(Ok(Reply([], msgs[k])), k + 1)
        else if k + 1 < |msgs| then Exchange(Ok(Reply(msgs[k], msgs[k + 1])), k + 2)
        else Exchange(Err(Timeout), k + 1)
    decreases k
  {
    if k == 0 {
      AcceptsFirst(msgs, t);
    } else {
      var tail := msgs[1..];
      assert Sendable(tail) && ParseHeader(tail[k - 1]).value.transaction == t by {
        assert forall i | 0 <= i < |tail| :: tail[i] == msgs[i + 1];
      }
      assert forall i | 0 <= i <= k - 1 :: |tail[i]| >= 8 by {
        assert forall i | 0 <= i <= k - 1 :: tail[i] == msgs[i + 1];
      }
      assert forall i | 0 <= i < k - 1 :: ParseHeader(tail[i]).value.transaction != t by {
        assert forall i | 0 <= i < k - 1 :: tail[i] == msgs[i + 1];
      }
      SkipsStale(tail, t, k - 1);
      DropsFirst(msgs, t);
      assert tail[k - 1] == msgs[k] && (k < |tail| ==> tail[k] == msgs[k + 1]);
    }
  }

  /** When no message carries transaction `t`, every one is dropped and the
      read ends in a time-out once the pipe is drained. */
  lemma {:induction false} NoMatchTimesOut(msgs: seq<seq<byte>>, t: u32)
    requires Sendable(msgs)
    requires forall i | 0 <= i < |msgs| :: |msgs[i]| >= 8 && ParseHeader(msgs[i]).value.transaction != t
    ensures Correlate(Transmit(msgs), t, false) == Exchange(Err(Timeout), |msgs|)
    decreases |msgs|
  {
    if msgs != [] {
      var tail := msgs[1..];
      assert Sendable(tail) && forall i | 0 <= i < |tail| :: |tail[i]| >= 8 && ParseHeader(tail[i]).value.transaction != t by {
        assert forall i | 0 <= i < |tail| :: tail[i] == msgs[i + 1];
      }
      NoMatchTimesOut(tail, t);
      DropsFirst(msgs, t);
    }
  }

  // ---------------------------------------------------------------------------
  // The interrupt endpoint

  /** What one poll of the interrupt endpoint found. */
  datatype Poll = Idle | Event(code: u16) | Rejected(error: Error)

  /** `PollEvent` on the frame the interrupt endpoint delivered: nothing when it
      is empty; otherwise length, type, code, session and transaction are read
      (sixteen bytes) and the type must be the event type. */
  function EventPoll(frame: Frame): (p: Poll)
    ensures frame == [] <==> p == Idle
    ensures p.Event? <==> |frame| >= 16 && Le16At(frame, 4) == EventContainer
  {
    if frame == [] then Idle
    else if |frame| < 16 then Rejected(ShortRead)
    else if Le16At(frame, 4) != EventContainer then Rejected(NotAnEvent)
    else Event(Le16At(frame, 6))
  }

  /** The sixteen-byte container header a device sends on the interrupt endpoint. */
  function InterruptHeader(length: u32, containerType: u16, code: u16, session: u32, transaction: u32): (b: seq<byte>)
    ensures |b| == 16
  {
    Le32Bytes(length) + Le16Bytes(containerType) + Le16Bytes(code) + Le32Bytes(session) + Le32Bytes(transaction)
  }

  /** An interrupt container is reported as its event code when it is an event
      and rejected otherwise, whatever follows its header. */
  lemma EventRoundTrip(length: u32, containerType: u16, code: u16, session: u32, transaction: u32, rest: seq<byte>)
    ensures var p := EventPoll(InterruptHeader(length, containerType, code, session, transaction) + rest);
      p == if containerType == EventContainer then Event(code) else Rejected(NotAnEvent)
  {
    var a, b, c := Le32Bytes(length), Le16Bytes(containerType), Le16Bytes(code);
    var tail := Le32Bytes(session) + Le32Bytes(transaction) + rest;
    var x := InterruptHeader(length, containerType, code, session, transaction) + rest;
    assert x == a + (b + (c + tail));
    Le16Shift(a, b + (c + tail), 0);
    Le16Concat(b, c + tail, 0);
    Le16Shift(a, b + (c + tail), 2);
    Le16Shift(b, c + tail, 0);
    Le16Concat(c, tail, 0);
  }
}

=== FILE: device.dfy ===
/** `Device`: the requests issued before a session exists. The request
    container is taken already encoded, since the operation encoding is not
    part of this model. */
module Ptp {
  import opened Bytes
  import opened Errors
  import opened UsbPipe
  import opened Correlation
  import opened Packeter

  /** A session: the pipe it talks over and the id it was opened with. */
  datatype Session = Session(pipe: BulkPipe, sessionId: u32)

  /** What `GetDeviceInfo` hands to the device-info decoder: the data phase
      past its eight header bytes. */
  function DeviceInfoPayload(outcome: Result<Reply>): (r: Result<seq<byte>>)
    ensures outcome.Err? ==> r == Err(outcome.error)
    ensures outcome.Ok? && |outcome.value.data| < 8 ==> r == Err(ShortRead)
    ensures outcome.Ok? && |outcome.value.data| >= 8 ==> r == Ok(outcome.value.data[8..])
    ensures r.Ok? ==> outcome.Ok? && outcome.value.data == outcome.value.data[..8] + r.value
  {
    match outcome
    case Err(e) => Err(e)
    case Ok(reply) => if |reply.data| < 8 then Err(ShortRead) else Ok(reply.data[8..])
  }

  class Device {
    /** The packeter over the device's bulk pipe. */
    const packeter: PipePacketer

    constructor (pipe: BulkPipe)
      ensures packeter.pipe == pipe
    {
      packeter := new PipePacketer(pipe);
    }

    /** Sends the GetDeviceInfo request (transaction 0) and reads its reply
        whatever transaction it carries. */
    method GetDeviceInfo(request: seq<byte>) returns (r: Result<seq<byte>>)
      modifies packeter.pipe
      ensures packeter.pipe.written == old(packeter.pipe.written) + [request]
      ensures var x := Correlate(old(packeter.pipe.bulkIn), 0, true);
        r == DeviceInfoPayload(x.outcome) && packeter.pipe.bulkIn == old(packeter.pipe.bulkIn)[x.consumed..]
      ensures packeter.pipe.interruptIn ==
        if old(packeter.pipe.interruptIn) == [] then [] else old(packeter.pipe.interruptIn)[1..]
    {
      packeter.Write(request);
      var reply := packeter.Read(0, true);
      r := DeviceInfoPayload(reply);
    }

    /** Sends the OpenSession request and reads its reply whatever transaction
        it carries; the session is made whatever status the reply holds. */
    method OpenSession(sessionId: u32, request: seq<byte>) returns (s: Result<Session>)
      modifies packeter.pipe
      ensures packeter.pipe.written == old(packeter.pipe.written) + [request]
      ensures var x := Correlate(old(packeter.pipe.bulkIn), 0, true);
        && (x.outcome.Ok? ==> s == Ok(Session(packeter.pipe, sessionId)))
        && (x.outcome.Err? ==> s == Err(x.outcome.error))
        && packeter.pipe.bulkIn == old(packeter.pipe.bulkIn)[x.consumed..]
      ensures packeter.pipe.interruptIn ==
        if old(packeter.pipe.interruptIn) == [] then [] else old(packeter.pipe.interruptIn)[1..]
    {
      packeter.Write(request);
      var reply := packeter.Read(0, true);
      if reply.Err? {
        return Err(reply.error);
      }
      s := Ok(Session(packeter.pipe, sessionId));
    }
  }

  /** A device answering GetDeviceInfo with a data container and a response:
      the payload after the data container's header comes back, whatever
      transaction the device put in it. */
  lemma DeviceInfoReply(h: Header, payload: seq<byte>, response: seq<byte>, rest: seq<seq<byte>>)
    requires h.containerType == DataContainer
    requires Sendable([EncodeHeader(h) + payload, response] + rest)
    ensures var x := Correlate(Transmit([EncodeHeader(h) + payload, response] + rest), 0, true);
      DeviceInfoPayload(x.outcome) == Ok(payload) && x.consumed == 2
  {
    var msgs := [EncodeHeader(h) + payload, response] + rest;
    HeaderRoundTrip(h, payload);
    IgnoreAcceptsFirst(Transmit(msgs), 0);
    ReadTransmitted(msgs);
    AcceptsFirst(msgs, h.transaction);
    assert (EncodeHeader(h) + payload)[8..] == payload;
  }

  /** Whatever status code and transaction the reply to OpenSession carries,
      the read accepts it, so the session is made. */
  lemma OpenSessionAnyStatus(h: Header, payload: seq<byte>, rest: seq<seq<byte>>)
    requires h.containerType != DataContainer
    requires Sendable([EncodeHeader(h) + payload] + rest)
    ensures Correlate(Transmit([EncodeHeader(h) + payload] + rest), 0, true) ==
      Exchange(Ok(Reply([], EncodeHeader(h) + payload)), 1)
  {
    var msgs := [EncodeHeader(h) + payload] + rest;
    HeaderRoundTrip(h, payload);
    IgnoreAcceptsFirst(Transmit(msgs), 0);
    ReadTransmitted(msgs);
    AcceptsFirst(msgs, h.transaction);
  }
}

=== FILE: discovery.dfy ===
/** `Device::Find`: the walk over the USB device tree that picks the first
    interface advertising the protocol. The tree, what each device lets open
    and the strings its name indices resolve to are given as data. */
module Discovery {
  import opened Errors

  /** An interface (alternate setting 0): class, subclass, the index of its
      name string (0 when it has none) and the string that index resolves to. */
  datatype Interface = Interface(interfaceClass: int, subclass: int, nameIndex: nat, name: string)

  datatype Configuration = Configuration(interfaces: seq<Interface>)

  /** A device on the bus: whether it can be opened, and its configurations. */
  datatype UsbDevice = UsbDevice(openable: bool, configurations: seq<Configuration>)

  /** The (device, configuration, interface) triple a pipe is made for. */
  datatype Binding = Binding(device: nat, configuration: nat, iface: nat)

  /** An interface named "MTP", or of the still-image class 6, subclass 1. */
  predicate Advertises(i: Interface)
  {
    (i.nameIndex != 0 && i.name == "MTP") || (i.interfaceClass == 6 && i.subclass == 1)
  }

  predicate InTree(devices: seq<UsbDevice>, b: Binding)
  {
    && b.device < |devices|
    && b.configuration < |devices[b.device].configurations|
    && b.iface < |devices[b.device].configurations[b.configuration].interfaces|
  }

  /** A triple `Find` would accept: in the tree, on a device that opens, and advertising. */
  predicate Matches(devices: seq<UsbDevice>, b: Binding)
  {
    && InTree(devices, b)
    && devices[b.device].openable
    && Advertises(devices[b.device].configurations[b.configuration].interfaces[b.iface])
  }

  /** Enumeration order: devices, then configurations, then interfaces. */
  predicate Before(a: Binding, b: Binding)
  {
    || a.device < b.device
    || (a.device == b.device && a.configuration < b.configuration)
    || (a.device == b.device && a.configuration == b.configuration && a.iface < b.iface)
  }

  /** Walks devices, configurations and interfaces in order, skipping devices
      that do not open, and stops at the first interface that advertises the
      protocol. */
  method Find(devices: seq<UsbDevice>) returns (found: Option<Binding>)
    ensures found.Some? ==> Matches(devices, found.value)
    ensures found.Some? ==> forall b | Matches(devices, b) :: !Before(b, found.value)
    ensures found.None? ==> forall b :: !Matches(devices, b)
  {
    for d := 0 to |devices|
      invariant forall b | Matches(devices, b) :: b.device >= d
    {
      var device := devices[d];
      if !device.openable {
        continue;
      }
      var confs := |device.configurations|;
      for c := 0 to confs
        invariant forall b | Matches(devices, b) :: b.device > d || (b.device == d && b.configuration >= c)
      {
        var interfaces := device.configurations[c].interfaces;
        for i := 0 to |interfaces|
          invariant forall b | Matches(devices, b) ::
            b.device > d || (b.device == d && (b.configuration > c || (b.configuration == c && b.iface >= i)))
        {
          var iface := interfaces[i];
          if iface.nameIndex != 0 {
            if iface.name == "MTP" {
              return Some(Binding(d, c, i));
            }
          }
          if iface.interfaceClass == 6 && iface.subclass == 1 {
            return Some(Binding(d, c, i));
          }
        }
      }
    }
    return None;
  }
}

=== FILE: errors.dfy ===
/** Failure values standing for the exceptions the transport throws. */
module Errors {

  datatype Option<T> = None | Some(value: T)

  /** Why a transport operation fails. */
  datatype Error =
    | Timeout      // the bulk pipe delivered no frame: read timeout or I/O error
    | ShortRead    // a field read ran past the end of its buffer
    | InvalidSize  // a length prefix below 4 ("invalid size")
    | Overrun      // the reassembly copy would write past the end of its buffer
    | NotAnEvent   // an interrupt container whose type is not Event ("not an event")

  datatype Result<T> = Ok(value: T) | Err(error: Error)
}

=== FILE: packeter.dfy ===
/** `PipePacketer`: the framing layer over a bulk pipe. Its methods follow the
    source statement by statement and are proved against the functions of
    `Reassembly` and `Correlation`. */
module Packeter {
  import opened Bytes
  import opened Errors
  import opened UsbPipe
  import opened Reassembly
  import opened Correlation

  /** Index by index, `Spliced` takes `src` inside its window and `buf` elsewhere. */
  lemma SplicedIndex(buf: seq<byte>, at: nat, src: seq<byte>)
    requires at + |src| <= |buf|
    ensures forall j | 0 <= j < |buf| ::
      Spliced(buf, at, src)[j] == if at <= j < at + |src| then src[j - at] else buf[j]
  {
  }

  /** Index by index, `Resized` keeps the old bytes and zero-fills the rest. */
  lemma ResizedIndex(s: seq<byte>, n: nat)
    ensures forall j | 0 <= j < n :: Resized(s, n)[j] == if j < |s| then s[j] else 0
  {
  }

  /** `result.resize(n)`, done on a fresh buffer. */
  method Resize(a: array<byte>, n: nat) returns (b: array<byte>)
    ensures fresh(b) && b[..] == Resized(a[..], n)
  {
    b := new byte[n](_ => 0);
    var k := if a.Length < n then a.Length else n;
    for i := 0 to k
      invariant forall j | 0 <= j < n :: b[j] == if j < i then a[j] else 0
    {
      b[i] := a[i];
    }
    ResizedIndex(a[..], n);
    assert b[..] == Resized(a[..], n);
  }

  /** `std::copy` of `src` into `dst` starting at index `at`. */
  method CopyInto(dst: array<byte>, at: nat, src: seq<byte>)
    requires at + |src| <= dst.Length
    modifies dst
    ensures dst[..] == Spliced(old(dst[..]), at, src)
  {
    for i := 0 to |src|
      invariant forall j | 0 <= j < dst.Length :: dst[j] == if at <= j < at + i then src[j - at] else old(dst[j])
    {
      dst[at + i] := src[i];
    }
    SplicedIndex(old(dst[..]), at, src);
    assert dst[..] == Spliced(old(dst[..]), at, src);
  }

  /** The body of `ReadMessage`'s loop on one frame `data`, with `result`,
      `size` and `offset` as the loop left them: parses the length prefix while
      `size` is the sentinel (resizing the buffer), copies the payload clamped
      to the room left and advances `offset` by the whole frame. The buffer
      comes back updated in place, or fresh after a resize. */
  method AbsorbFrame(result: array<byte>, size: u32, offset: nat, data: Frame)
    returns (step: Step, buffer: array<byte>)
    modifies result
    ensures step == Absorb(Assembly(size, offset, old(result[..])), data)
    ensures buffer == result || fresh(buffer)
    ensures step.Continue? ==> step.next.buffer == buffer[..]
    ensures step.Finished? ==> step.message == buffer[..]
  {
    ghost var st := Assembly(size, offset, result[..]);
    buffer := result;
    var packetOffset: nat;
    var length := size;
    if size == Unparsed {
      if |data| < 4 {
        return Failed(ShortRead), buffer;
      }
      length := Le32At(data, 0);
      if length < 4 {
        return Failed(InvalidSize), buffer;
      }
      packetOffset := 4;
      buffer := Resize(result, length - 4);
    } else {
      packetOffset := 0;
    }
    ghost var prepared := Assembly(length, offset, buffer[..]);
    assert Absorb(st, data) == Deliver(prepared, data, packetOffset);
    if offset > buffer.Length && |data| > packetOffset {
      return Failed(Overrun), buffer;
    }
    var srcN := CopyCount(buffer.Length, offset, data, packetOffset);
    if srcN > 0 {
      CopyInto(buffer, offset, data[packetOffset..packetOffset + srcN]);
    }
    assert buffer[..] == CopyClamped(prepared.buffer, offset, data, packetOffset);
    var advanced := offset + |data|;
    if advanced >= buffer.Length {
      step := Finished(buffer[..]);
    } else {
      step := Continue(Assembly(length, advanced, buffer[..]));
    }
  }

  class PipePacketer {
    /** The bulk pipe the packeter reads and writes. */
    const pipe: BulkPipe

    constructor (pipe: BulkPipe)
      ensures this.pipe == pipe
    {
      this.pipe := pipe;
    }

    /** Sends one request container as it is. */
    method Write(data: seq<byte>)
      modifies pipe
      ensures pipe.written == old(pipe.written) + [data]
      ensures pipe.bulkIn == old(pipe.bulkIn) && pipe.interruptIn == old(pipe.interruptIn)
    {
      pipe.Write(data);
    }

    /** Reads frames until one length-prefixed message is complete. */
    method ReadMessage() returns (r: Result<seq<byte>>)
      modifies pipe
      ensures var spec := ReadMessageSpec(old(pipe.bulkIn));
        r == spec.outcome && pipe.bulkIn == old(pipe.bulkIn)[spec.consumed..]
      ensures pipe.interruptIn == old(pipe.interruptIn) && pipe.written == old(pipe.written)
    {
      var result := new byte[0];
      var size: u32 := Unparsed;
      var offset: nat := 0;
      ghost var frames := pipe.bulkIn;
      ResumesStart(frames);
      while true
        invariant fresh(result)
        invariant pipe.interruptIn == old(pipe.interruptIn) && pipe.written == old(pipe.written)
        invariant Resumes(frames, pipe.bulkIn, Assembly(size, offset, result[..]))
        decreases |pipe.bulkIn|
      {
        ghost var st := Assembly(size, offset, result[..]);
        ghost var pending := pipe.bulkIn;
        if pending == [] {
          ResumesTimeout(frames, st);
        }
        var read := pipe.Read();
        if read.Err? {
          return Err(read.error);
        }
        var step;
        step, result := AbsorbFrame(result, size, offset, read.value);
        match step
        case Failed(e) =>
          ResumesEnd(frames, pending, st, Err(e));
          return Err(e);
        case Finished(message) =>
          ResumesEnd(frames, pending, st, Ok(message));
          return Ok(result[..]);
        case Continue(next) =>
          ResumesContinue(frames, pending, st, next);
          size, offset := next.size, next.offset;
      }
    }

    /** Polls the interrupt endpoint once; an empty frame means nothing is pending. */
    method PollEvent() returns (p: Poll)
      modifies pipe
      ensures old(pipe.interruptIn) == [] ==> p == Idle && pipe.interruptIn == []
      ensures old(pipe.interruptIn) != [] ==>
        p == EventPoll(old(pipe.interruptIn)[0]) && pipe.interruptIn == old(pipe.interruptIn)[1..]
      ensures pipe.bulkIn == old(pipe.bulkIn) && pipe.written == old(pipe.written)
    {
      var frame := pipe.ReadInterrupt();
      p := EventPoll(frame);
    }

    /** Polls the interrupt endpoint, ignoring whatever it finds, then reads
        messages until one of the expected transaction (or any, with
        `ignoreTransaction`) arrives; a data container is followed by one more
        message, the response. */
    method Read(transaction: u32, ignoreTransaction: bool) returns (r: Result<Reply>)
      modifies pipe
      ensures var x := Correlate(old(pipe.bulkIn), transaction, ignoreTransaction);
        r == x.outcome && pipe.bulkIn == old(pipe.bulkIn)[x.consumed..]
      ensures pipe.interruptIn == if old(pipe.interruptIn) == [] then [] else old(pipe.interruptIn)[1..]
      ensures pipe.written == old(pipe.written)
    {
      var _ := PollEvent();
      ghost var frames := pipe.bulkIn;
      ghost var interrupts := pipe.interruptIn;
      var message: seq<byte>;
      var header: Header;
      ReadingStart(frames, transaction, ignoreTransaction);
      while true
        invariant pipe.interruptIn == interrupts && pipe.written == old(pipe.written)
        invariant Reading(frames, pipe.bulkIn, transaction, ignoreTransaction)
        decreases |pipe.bulkIn|
      {
        ghost var pending := pipe.bulkIn;
        var read := ReadMessage();
        if read.Err? {
          ReadingFails(frames, pending, transaction, ignoreTransaction);
          return Err(read.error);
        }
        message := read.value;
        var parsed := ParseHeader(message);
        if parsed.Err? {
          ReadingFails(frames, pending, transaction, ignoreTransaction);
          return Err(parsed.error);
        }
        header := parsed.value;
        if ignoreTransaction || header.transaction == transaction {
          ReadingAccepts(frames, pending, transaction, ignoreTransaction);
          break;
        }
        ReadingDrops(frames, pending, transaction, ignoreTransaction);
      }
      if header.containerType == DataContainer {
        CompleteData(message, header, pipe.bulkIn);
        var response := ReadMessage();
        if response.Err? {
          return Err(response.error);
        }
        r := Ok(Reply(message, response.value));
      } else {
        r := Ok(Reply([], message));
      }
    }
  }
}

=== FILE: pipe.dfy ===
/** The raw channel the transport is built on: a USB bulk pipe with an
    interrupt endpoint beside it. What the device will send is given up front
    as queues of frames; every read consumes the frame at the head, and an
    exhausted bulk queue stands for a read that times out or fails. */
module UsbPipe {
  import opened Bytes
  import opened Errors

  class BulkPipe {
    /** Frames the device will deliver on the bulk-in endpoint, in order. */
    var bulkIn: seq<Frame>
    /** Frames pending on the interrupt endpoint, in order. */
    var interruptIn: seq<Frame>
    /** Every buffer written to the bulk-out endpoint so far, in order. */
    var written: seq<seq<byte>>

    constructor (bulkIn: seq<Frame>, interruptIn: seq<Frame>)
      ensures this.bulkIn == bulkIn && this.interruptIn == interruptIn
      ensures written == []
    {
      this.bulkIn := bulkIn;
      this.interruptIn := interruptIn;
      written := [];
    }

    /** One blocking bulk read: the next frame, or a timeout when none comes. */
    method Read() returns (r: Result<Frame>)
      modifies this
      ensures old(bulkIn) == [] ==> r == Err(Timeout) && bulkIn == []
      ensures old(bulkIn) != [] ==> r == Ok(old(bulkIn)[0]) && bulkIn == old(bulkIn)[1..]
      ensures interruptIn == old(interruptIn) && written == old(written)
    {
      if bulkIn == [] {
        r := Err(Timeout);
      } else {
        r := Ok(bulkIn[0]);
        bulkIn := bulkIn[1..];
      }
    }

    /** One interrupt read: the pending frame, or empty when nothing is pending. */
    method ReadInterrupt() returns (f: Frame)
      modifies this
      ensures old(interruptIn) == [] ==> f == [] && interruptIn == []
      ensures old(interruptIn) != [] ==> f == old(interruptIn)[0] && interruptIn == old(interruptIn)[1..]
      ensures bulkIn == old(bulkIn) && written == old(written)
    {
      if interruptIn == [] {
        f := [];
      } else {
        f := interruptIn[0];
        interruptIn := interruptIn[1..];
      }
    }

    /** One bulk write of `data`, recorded in the write log. */
    method Write(data: seq<byte>)
      modifies this
      ensures written == old(written) + [data]
      ensures bulkIn == old(bulkIn) && interruptIn == old(interruptIn)
    {
      written := written + [data];
    }
  }
}

=== FILE: reassembly.dfy ===
/** What `PipePacketer::ReadMessage` computes from the frames the bulk pipe
    delivers: the loop is stated one frame at a time (`Absorb`) and run over
    the frame queue (`Run`); the lemmas say what the result is in closed form. */
module Reassembly {
  import opened Bytes
  import opened Errors

  /** `~0u`: the value of `size` that means "no length prefix parsed yet". */
  const Unparsed: u32 := 0xFFFF_FFFF

  /** The loop's variables between two reads: `size`, `offset` and `result`. */
  datatype Assembly = Assembly(size: u32, offset: nat, buffer: seq<byte>)

  const Start: Assembly := Assembly(Unparsed, 0, [])

  /** What one pass of the loop body does with one raw frame. */
  datatype Step = Continue(next: Assembly) | Finished(message: seq<byte>) | Failed(error: Error)

  /** The message (or failure) and how many frames were read to get it. */
  datatype Reassembled = Reassembled(outcome: Result<seq<byte>>, consumed: nat)

  function Min(a: int, b: int): int { if a <= b then a else b }

  /** `result.resize(n)`: keeps the first `n` bytes, zero-fills any growth. */
  function Resized(s: seq<byte>, n: nat): (r: seq<byte>)
    ensures |r| == n
  {
    if n <= |s| then s[..n] else s + Zeros(n - |s|)
  }

  /** `buf` with `src` copied over it starting at index `at`. */
  function Spliced(buf: seq<byte>, at: nat, src: seq<byte>): (r: seq<byte>)
    requires at + |src| <= |buf|
    ensures |r| == |buf|
  {
    buf[..at] + src + buf[at + |src|..]
  }

  /** One pass of the loop body on frame `data`: parse the length prefix while
      `size` is still the sentinel, copy the payload at `offset` clamped to the
      room left in the buffer, advance `offset` by the whole frame, and stop once
      it reaches the end of the buffer.
      The room `result.size() - offset` is computed in `size_t`: when `offset`
      lies past the end of the buffer it wraps around to a value above any
      payload, so the clamp lets every payload byte through and each one is
      written past the end (`Overrun`). */
  function Absorb(st: Assembly, data: Frame): (s: Step)
    ensures s.Failed? ==> s.error == ShortRead || s.error == InvalidSize || s.error == Overrun
    ensures (s.Failed? && s.error != Overrun) <==>
      st.size == Unparsed && (|data| < 4 || Le32At(data, 0) < 4)
    ensures st.size != Unparsed && st.offset <= |st.buffer| ==> !s.Failed?
    ensures s.Finished? ==>
      |s.message| == (if st.size == Unparsed then Le32At(data, 0) - 4 else |st.buffer|)
      && st.offset + |data| >= |s.message|
    ensures s.Continue? ==>
      && s.next.size == (if st.size == Unparsed then Le32At(data, 0) else st.size)
      && |s.next.buffer| == (if st.size == Unparsed then Le32At(data, 0) - 4 else |st.buffer|)
      && s.next.offset == st.offset + |data| < |s.next.buffer|
  {
    if st.size == Unparsed && |data| < 4 then Failed(ShortRead)
    else if st.size == Unparsed && Le32At(data, 0) < 4 then Failed(InvalidSize)
    else Deliver(Prepared(st, data), data, if st.size == Unparsed then 4 else 0)
  }

  /** The loop state once the length prefix is known: while `size` is the
      sentinel, the frame's prefix is parsed into `size` and the buffer is
      resized to `size - 4`. */
  function Prepared(st: Assembly, data: Frame): (p: Assembly)
    requires st.size == Unparsed ==> |data| >= 4 && Le32At(data, 0) >= 4
    ensures p.offset == st.offset
  {
    if st.size == Unparsed then
      Assembly(Le32At(data, 0), st.offset, Resized(st.buffer, Le32At(data, 0) - 4))
    else st
  }

  /** The rest of the loop body, past the first `skip` bytes of the frame. */
  function Deliver(st: Assembly, data: Frame, skip: nat): Step
    requires skip <= |data|
  {
    if st.offset > |st.buffer| && |data| > skip then Failed(Overrun)
    else
      var filled := CopyClamped(st.buffer, st.offset, data, skip);
      var offset := st.offset + |data|;
      if offset >= |filled| then Finished(filled)
      else Continue(Assembly(st.size, offset, filled))
  }

  /** `buf` after copying `data[skip..]` at `offset`, clamped to the room left
      (nothing is copied when `offset` is at or past the end). */
  function CopyClamped(buf: seq<byte>, offset: nat, data: Frame, skip: nat): (r: seq<byte>)
    requires skip <= |data|
    requires offset <= |buf| || skip == |data|
    ensures |r| == |buf|
  {
    var n := CopyCount(|buf|, offset, data, skip);
    if n == 0 then buf else Spliced(buf, offset, data[skip..skip + n])
  }

  /** `src_n`: how many payload bytes fit in the room left. Past the end of the
      buffer the room would wrap around in `size_t`; callers reach this only
      with `offset` inside the buffer or with no payload left to copy. */
  function CopyCount(length: nat, offset: nat, data: Frame, skip: nat): (n: nat)
    requires skip <= |data|
    requires offset <= length || skip == |data|
    ensures offset + n <= length || n == 0
    ensures skip + n <= |data|
  {
    if offset < length then Min(|data| - skip, length - offset) else 0
  }

  /** The loop run from state `st` over the queued frames. */
  function Run(frames: seq<Frame>, st: Assembly): (r: Reassembled)
    ensures r.consumed <= |frames|
    ensures frames != [] ==> r.consumed >= 1
    ensures r.outcome == Err(Timeout) ==> r.consumed == |frames|
    decreases |frames|
  {
    if frames == [] then Reassembled(Err(Timeout), 0)
    else
      match Absorb(st, frames[0])
      case Failed(e) => Reassembled(Err(e), 1)
      case Finished(m) => Reassembled(Ok(m), 1)
      case Continue(next) =>
        var r := Run(frames[1..], next);
        Reassembled(r.outcome, r.consumed + 1)
  }

  /** `ReadMessage` on a bulk pipe whose pending frames are `frames`: it times
      out on an empty pipe, and the first frame must hold a length prefix of at
      least 4. */
  function ReadMessageSpec(frames: seq<Frame>): (r: Reassembled)
    ensures frames == [] ==> r == Reassembled(Err(Timeout), 0)
    ensures frames != [] && |frames[0]| < 4 ==> r == Reassembled(Err(ShortRead), 1)
    ensures frames != [] && |frames[0]| >= 4 && Le32At(frames[0], 0) < 4 ==>
      r == Reassembled(Err(InvalidSize), 1)
  {
    Run(frames, Start)
  }

  lemma RunContinue(rest: seq<Frame>, st: Assembly, next: Assembly)
    requires rest != [] && Absorb(st, rest[0]) == Continue(next)
    ensures Run(rest, st) == Reassembled(Run(rest[1..], next).outcome, Run(rest[1..], next).consumed + 1)
  {
  }

  lemma RunFinish(rest: seq<Frame>, st: Assembly, m: seq<byte>)
    requires rest != [] && Absorb(st, rest[0]) == Finished(m)
    ensures Run(rest, st) == Reassembled(Ok(m), 1)
  {
  }

  lemma RunFail(rest: seq<Frame>, st: Assembly, e: Error)
    requires rest != [] && Absorb(st, rest[0]) == Failed(e)
    ensures Run(rest, st) == Reassembled(Err(e), 1)
  {
  }

  /** `ReadMessage` part-way through: `pending` is what is left of `frames`,
      and running the loop on from `st` ends as running it from the start does. */
  ghost predicate Resumes(frames: seq<Frame>, pending: seq<Frame>, st: Assembly)
  {
    && |pending| <= |frames| && pending == frames[|frames| - |pending|..]
    && ReadMessageSpec(frames) ==
       Reassembled(Run(pending, st).outcome, Run(pending, st).consumed + (|frames| - |pending|))
  }

  lemma ResumesStart(frames: seq<Frame>)
    ensures Resumes(frames, frames, Start)
  {
  }

  /** A frame that continues the message keeps the loop in step with `Run`. */
  lemma ResumesContinue(frames: seq<Frame>, pending: seq<Frame>, st: Assembly, next: Assembly)
    requires Resumes(frames, pending, st) && pending != [] && Absorb(st, pending[0]) == Continue(next)
    ensures Resumes(frames, pending[1..], next)
  {
    RunContinue(pending, st, next);
    assert frames[|frames| - |pending|..][1..] == frames[|frames| - |pending[1..]|..];
  }

  /** A frame that ends the loop ends `ReadMessage` with what is left after it. */
  lemma ResumesEnd(frames: seq<Frame>, pending: seq<Frame>, st: Assembly, outcome: Result<seq<byte>>)
    requires Resumes(frames, pending, st) && pending != []
    requires outcome.Ok? ==> Absorb(st, pending[0]) == Finished(outcome.value)
    requires outcome.Err? ==> Absorb(st, pending[0]) == Failed(outcome.error)
    ensures ReadMessageSpec(frames).outcome == outcome
    ensures frames[ReadMessageSpec(frames).consumed..] == pending[1..]
  {
    if outcome.Ok? {
      RunFinish(pending, st, outcome.value);
    } else {
      RunFail(pending, st, outcome.error);
    }
    assert frames[|frames| - |pending|..][1..] == frames[|frames| - |pending| + 1..];
  }

  /** Running out of frames times the read out with nothing left. */
  lemma ResumesTimeout(frames: seq<Frame>, st: Assembly)
    requires Resumes(frames, [], st)
    ensures ReadMessageSpec(frames).outcome == Err(Timeout)
    ensures frames[ReadMessageSpec(frames).consumed..] == []
  {
  }

  // ---------------------------------------------------------------------------
  // The closed form of the result

  /** Total number of bytes in the frames. */
  function TotalLength(frames: seq<Frame>): nat
  {
    if frames == [] then 0 else |frames[0]| + TotalLength(frames[1..])
  }

  /** The frames' bytes, one after the other. */
  function Flatten(frames: seq<Frame>): (s: seq<byte>)
    ensures |s| == TotalLength(frames)
  {
    if frames == [] then [] else frames[0] + Flatten(frames[1..])
  }

  /** The byte stream that `offset` walks along: the first frame without its
      length prefix, four never-written zero bytes (the prefix is counted into
      `offset` too), then every later frame whole. */
  function Accounted(frames: seq<Frame>): (s: seq<byte>)
    requires |frames| >= 1 && |frames[0]| >= 4
    ensures |s| == TotalLength(frames)
  {
    frames[0][4..] + Zeros(4) + Flatten(frames[1..])
  }

  lemma PrefixCons(frames: seq<Frame>, k: nat)
    requires 1 <= k <= |frames|
    ensures TotalLength(frames[..k]) == |frames[0]| + TotalLength(frames[1..][..k - 1])
    ensures Flatten(frames[..k]) == frames[0] + Flatten(frames[1..][..k - 1])
  {
    assert frames[..k][1..] == frames[1..][..k - 1];
  }

  lemma PrefixOne(frames: seq<Frame>)
    requires 1 <= |frames|
    ensures TotalLength(frames[..1]) == |frames[0]| && Flatten(frames[..1]) == frames[0]
  {
    PrefixCons(frames, 1);
    assert frames[1..][..0] == [];
  }

  /** Splitting the first frame off the `n` frames that complete the message. */
  lemma PrefixStep(rest: seq<Frame>, s: seq<byte>, n: nat)
    requires 2 <= n <= |rest|
    ensures TotalLength(rest[..n - 1]) == |rest[0]| + TotalLength(rest[1..][..n - 2])
    ensures TotalLength(rest[..n]) == |rest[0]| + TotalLength(rest[1..][..n - 1])
    ensures s + Flatten(rest[..n]) == (s + rest[0]) + Flatten(rest[1..][..n - 1])
  {
    PrefixCons(rest, n - 1);
    PrefixCons(rest, n);
    var x := Flatten(rest[1..][..n - 1]);
    assert s + (rest[0] + x) == (s + rest[0]) + x;
  }

  /** Loop state after the length prefix: the buffer holds the accounted
      stream `s` so far and zeros after it. */
  ghost predicate Laid(st: Assembly, s: seq<byte>)
  {
    && st.size != Unparsed
    && 4 <= st.size
    && |st.buffer| == st.size - 4
    && |s| == st.offset < |st.buffer|
    && st.buffer == s + Zeros(|st.buffer| - |s|)
  }

  /** The loop body once the length prefix is known. */
  lemma AbsorbAfterPrefix(st: Assembly, d: Frame)
    requires st.size != Unparsed && st.offset <= |st.buffer|
    ensures var filled := CopyClamped(st.buffer, st.offset, d, 0);
      Absorb(st, d) == if st.offset + |d| >= |st.buffer| then Finished(filled)
                       else Continue(Assembly(st.size, st.offset + |d|, filled))
  {
  }

  /** One frame after the prefix: its bytes land right after `s`, clamped to the buffer. */
  lemma CopyLaid(st: Assembly, s: seq<byte>, d: Frame)
    requires Laid(st, s)
    ensures |s| + |d| >= |st.buffer| ==> CopyClamped(st.buffer, |s|, d, 0) == (s + d)[..|st.buffer|]
    ensures |s| + |d| < |st.buffer| ==>
      CopyClamped(st.buffer, |s|, d, 0) == (s + d) + Zeros(|st.buffer| - |s| - |d|)
  {
    var k := Min(|d|, |st.buffer| - |s|);
    assert d[0..k] == d[..k];
  }

  /** The frame that completes the message. */
  lemma RunLaidLast(rest: seq<Frame>, st: Assembly, s: seq<byte>)
    requires Laid(st, s)
    requires 1 <= |rest| && |s| + |rest[0]| >= |st.buffer|
    ensures Run(rest, st) == Reassembled(Ok((s + Flatten(rest[..1]))[..|st.buffer|]), 1)
  {
    var d := rest[0];
    PrefixOne(rest);
    AbsorbAfterPrefix(st, d);
    assert CopyClamped(st.buffer, |s|, d, 0) == (s + d)[..|st.buffer|] by { CopyLaid(st, s, d); }
    RunFinish(rest, st, (s + d)[..|st.buffer|]);
  }

  /** A frame that does not complete the message leaves the state laid out
      the same way, with the frame appended to the accounted stream. */
  lemma RunLaidNext(rest: seq<Frame>, st: Assembly, s: seq<byte>) returns (next: Assembly)
    requires Laid(st, s)
    requires 1 <= |rest| && |s| + |rest[0]| < |st.buffer|
    ensures Laid(next, s + rest[0]) && |next.buffer| == |st.buffer|
    ensures Run(rest, st) == Reassembled(Run(rest[1..], next).outcome, Run(rest[1..], next).consumed + 1)
  {
    var d := rest[0];
    next := Assembly(st.size, |s| + |d|, (s + d) + Zeros(|st.buffer| - |s| - |d|));
    AbsorbAfterPrefix(st, d);
    assert CopyClamped(st.buffer, |s|, d, 0) == next.buffer by { CopyLaid(st, s, d); }
    RunContinue(rest, st, next);
  }

  lemma {:induction false} RunLaid(rest: seq<Frame>, st: Assembly, s: seq<byte>, n: nat)
    requires Laid(st, s)
    requires 1 <= n <= |rest|
    requires |s| + TotalLength(rest[..n - 1]) < |st.buffer| <= |s| + TotalLength(rest[..n])
    ensures Run(rest, st) == Reassembled(Ok((s + Flatten(rest[..n]))[..|st.buffer|]), n)
    decreases n
  {
    if n == 1 {
      PrefixOne(rest);
      RunLaidLast(rest, st, s);
    } else {
      PrefixStep(rest, s, n);
      var next := RunLaidNext(rest, st, s);
      RunLaid(rest[1..], next, s + rest[0], n - 1);
    }
  }

  lemma {:induction false} RunLaidTimeout(rest: seq<Frame>, st: Assembly, s: seq<byte>)
    requires Laid(st, s)
    requires |s| + TotalLength(rest) < |st.buffer|
    ensures Run(rest, st) == Reassembled(Err(Timeout), |rest|)
    decreases |rest|
  {
    if rest != [] {
      var next := RunLaidNext(rest, st, s);
      RunLaidTimeout(rest[1..], next, s + rest[0]);
    }
  }

  /** The loop body on the first frame: the prefix gives `L`, the buffer is
      `L - 4` zeros and the payload is copied at 0. */
  lemma AbsorbStart(f: Frame)
    requires |f| >= 4 && 4 <= Le32At(f, 0)
    ensures var L := Le32At(f, 0);
      var filled := CopyClamped(Zeros(L - 4), 0, f, 4);
      Absorb(Start, f) == if |f| >= L - 4 then Finished(filled) else Continue(Assembly(L, |f|, filled))
  {
    assert Resized([], Le32At(f, 0) - 4) == Zeros(Le32At(f, 0) - 4);
  }

  lemma SplicedZeros(m: nat, q: seq<byte>)
    requires |q| <= m
    ensures Spliced(Zeros(m), 0, q) == q + Zeros(m - |q|)
  {
  }

  lemma ZerosAdd(a: nat, b: nat)
    ensures Zeros(a) + Zeros(b) == Zeros(a + b)
  {
  }

  lemma ZerosPrefix(a: nat, b: nat)
    requires a <= b
    ensures Zeros(b)[..a] == Zeros(a)
  {
  }

  /** The buffer after the first frame, seen as a prefix of the accounted stream. */
  lemma CopyFirst(f: Frame, m: nat)
    requires |f| >= 4
    ensures |f| >= m ==> CopyClamped(Zeros(m), 0, f, 4) == (f[4..] + Zeros(4))[..m]
    ensures |f| < m ==> CopyClamped(Zeros(m), 0, f, 4) == (f[4..] + Zeros(4)) + Zeros(m - |f|)
  {
    var p := f[4..];
    var k := Min(|p|, m);
    assert CopyClamped(Zeros(m), 0, f, 4) == p[..k] + Zeros(m - k) by {
      assert f[4..4 + k] == p[..k];
      SplicedZeros(m, p[..k]);
    }
    if |p| >= m {
      assert p[..m] + Zeros(0) == (p + Zeros(4))[..m];
    } else if |p| + 4 >= m {
      ZerosPrefix(m - |p|, 4);
      assert p + Zeros(m - |p|) == (p + Zeros(4))[..m];
    } else {
      ZerosAdd(4, m - |p| - 4);
      assert p[..|p|] == p;
    }
  }

  /** After a first frame that does not complete the message, the state is laid out. */
  lemma FirstLaid(f: Frame) returns (next: Assembly)
    requires |f| >= 4 && 4 <= Le32At(f, 0) != Unparsed && |f| < Le32At(f, 0) - 4
    ensures Absorb(Start, f) == Continue(next)
    ensures Laid(next, f[4..] + Zeros(4)) && |next.buffer| == Le32At(f, 0) - 4
  {
    var L := Le32At(f, 0);
    next := Assembly(L, |f|, (f[4..] + Zeros(4)) + Zeros(L - 4 - |f|));
    AbsorbStart(f);
    assert CopyClamped(Zeros(L - 4), 0, f, 4) == next.buffer by { CopyFirst(f, L - 4); }
  }

  /** The message completes within the first frame. */
  lemma LayoutOneFrame(frames: seq<Frame>)
    requires 1 <= |frames| && |frames[0]| >= 4
    requires 4 <= Le32At(frames[0], 0) <= |frames[0]| + 4
    ensures ReadMessageSpec(frames) == Reassembled(Ok((frames[0][4..] + Zeros(4))[..Le32At(frames[0], 0) - 4]), 1)
  {
    var f, L := frames[0], Le32At(frames[0], 0);
    AbsorbStart(f);
    assert CopyClamped(Zeros(L - 4), 0, f, 4) == (f[4..] + Zeros(4))[..L - 4] by { CopyFirst(f, L - 4); }
    RunFinish(frames, Start, (f[4..] + Zeros(4))[..L - 4]);
  }

  /** The message needs later frames: after the first one, the state is laid out. */
  lemma LayoutLaterFrames(frames: seq<Frame>, n: nat)
    requires 2 <= n <= |frames| && |frames[0]| >= 4
    requires 4 <= Le32At(frames[0], 0) != Unparsed
    requires |frames[0]| + TotalLength(frames[1..][..n - 2]) < Le32At(frames[0], 0) - 4
    requires Le32At(frames[0], 0) - 4 <= |frames[0]| + TotalLength(frames[1..][..n - 1])
    ensures var s1 := frames[0][4..] + Zeros(4);
      ReadMessageSpec(frames) ==
      Reassembled(Ok((s1 + Flatten(frames[1..][..n - 1]))[..Le32At(frames[0], 0) - 4]), n)
  {
    var next := FirstLaid(frames[0]);
    RunContinue(frames, Start, next);
    RunLaid(frames[1..], next, frames[0][4..] + Zeros(4), n - 1);
  }

  /** Reassembly in closed form. With a length prefix `L` (neither below 4 nor
      the sentinel), `ReadMessage` reads exactly the `n` frames it takes for
      their total size to reach `L - 4`, and returns the first `L - 4` bytes of
      the accounted stream of those frames. */
  lemma ReassemblyLayout(frames: seq<Frame>, n: nat)
    requires 1 <= n <= |frames| && |frames[0]| >= 4
    requires 4 <= Le32At(frames[0], 0) != Unparsed
    requires n == 1 || TotalLength(frames[..n - 1]) < Le32At(frames[0], 0) - 4
    requires Le32At(frames[0], 0) - 4 <= TotalLength(frames[..n])
    ensures ReadMessageSpec(frames) ==
      Reassembled(Ok(Accounted(frames[..n])[..Le32At(frames[0], 0) - 4]), n)
  {
    var f := frames[0];
    var later := frames[1..][..n - 1];
    assert Accounted(frames[..n]) == f[4..] + Zeros(4) + Flatten(later) by {
      assert frames[..n][0] == f && frames[..n][1..] == later;
    }
    PrefixCons(frames, n);
    if n == 1 {
      assert later == [] && Flatten(later) == [];
      assert f[4..] + Zeros(4) + Flatten(later) == f[4..] + Zeros(4);
      LayoutOneFrame(frames);
    } else {
      PrefixCons(frames, n - 1);
      LayoutLaterFrames(frames, n);
    }
  }

  /** When the frames run out before their total size reaches `L - 4`, the
      read times out after consuming all of them. */
  lemma ReassemblyTimeout(frames: seq<Frame>)
    requires 1 <= |frames| && |frames[0]| >= 4
    requires 4 <= Le32At(frames[0], 0) != Unparsed
    requires TotalLength(frames) < Le32At(frames[0], 0) - 4
    ensures ReadMessageSpec(frames) == Reassembled(Err(Timeout), |frames|)
  {
    var next := FirstLaid(frames[0]);
    RunContinue(frames, Start, next);
    RunLaidTimeout(frames[1..], next, frames[0][4..] + Zeros(4));
  }

  // ---------------------------------------------------------------------------
  // Consequences

  /** Once a proper length prefix is parsed, the loop can only time out or
      return a message of exactly `size - 4` bytes. */
  lemma {:induction false} RunKeepsSize(frames: seq<Frame>, st: Assembly)
    requires st.size != Unparsed && |st.buffer| == st.size - 4 && st.offset < |st.buffer|
    ensures var r := Run(frames, st);
      r.outcome == Err(Timeout) || (r.outcome.Ok? && |r.outcome.value| == st.size - 4)
    decreases |frames|
  {
    if frames != [] {
      AbsorbAfterPrefix(st, frames[0]);
      if Absorb(st, frames[0]).Continue? {
        RunKeepsSize(frames[1..], Absorb(st, frames[0]).next);
      }
    }
  }

  /** A length prefix `L` other than the sentinel yields a message of `L - 4`
      bytes or a time-out: never a short read, an invalid size or an overrun. */
  lemma MessageLength(frames: seq<Frame>)
    requires 1 <= |frames| && |frames[0]| >= 4
    requires 4 <= Le32At(frames[0], 0) != Unparsed
    ensures var r := ReadMessageSpec(frames);
      r.outcome == Err(Timeout) || (r.outcome.Ok? && |r.outcome.value| == Le32At(frames[0], 0) - 4)
  {
    AbsorbStart(frames[0]);
    if Absorb(Start, frames[0]).Continue? {
      RunKeepsSize(frames[1..], Absorb(Start, frames[0]).next);
    }
  }

  /** A frame that holds the whole container: the payload is `frame[4..L)`. */
  lemma SingleFrame(frames: seq<Frame>)
    requires 1 <= |frames| && |frames[0]| >= 4
    requires 4 <= Le32At(frames[0], 0) <= |frames[0]|
    ensures ReadMessageSpec(frames) == Reassembled(Ok(frames[0][4..Le32At(frames[0], 0)]), 1)
  {
    var f, L := frames[0], Le32At(frames[0], 0);
    LayoutOneFrame(frames);
    assert (f[4..] + Zeros(4))[..L - 4] == f[4..L];
  }

  /** A container with no payload is read as an empty message after one frame. */
  lemma EmptyContainer(frames: seq<Frame>)
    requires 1 <= |frames| && |frames[0]| >= 4 && Le32At(frames[0], 0) == 4
    ensures ReadMessageSpec(frames) == Reassembled(Ok([]), 1)
  {
    SingleFrame(frames);
  }

  /** A first frame up to four bytes short of the container still completes the
      read, because `offset` counts the prefix: the missing bytes read as zeros. */
  lemma ZeroPadded(frames: seq<Frame>)
    requires 1 <= |frames| && |frames[0]| >= 4
    requires |frames[0]| < Le32At(frames[0], 0) <= |frames[0]| + 4
    ensures ReadMessageSpec(frames) ==
      Reassembled(Ok(frames[0][4..] + Zeros(Le32At(frames[0], 0) - |frames[0]|)), 1)
  {
    var f, L := frames[0], Le32At(frames[0], 0);
    LayoutOneFrame(frames);
    ZerosPrefix(L - |f|, 4);
    assert (f[4..] + Zeros(4))[..L - 4] == f[4..] + Zeros(4)[..L - |f|];
  }

  /** Equal first four bytes give the same length prefix. */
  lemma SamePrefix(a: seq<byte>, b: seq<byte>)
    requires |a| >= 4 && |b| >= 4 && a[..4] == b[..4]
    ensures Le32At(a, 0) == Le32At(b, 0)
  {
    assert a[0] == b[0] && a[1] == b[1] && a[2] == b[2] && a[3] == b[3] by {
      assert a[..4][0] == a[0] && a[..4][1] == a[1] && a[..4][2] == a[2] && a[..4][3] == a[3];
    }
  }

  /** The container carrying payload `m`: its total length, then `m`. */
  function Framed(m: seq<byte>): (c: seq<byte>)
    requires |m| + 4 < 0x1_0000_0000
    ensures |c| == |m| + 4 && c[4..] == m && Le32At(c, 0) == |m| + 4
  {
    var prefix := Le32Bytes(|m| + 4);
    assert (prefix + m)[..4] == prefix[..4];
    SamePrefix(prefix + m, prefix);
    prefix + m
  }

  /** A container sent as one frame is read back as its payload. */
  lemma FramedRoundTrip(m: seq<byte>, rest: seq<Frame>)
    requires |m| + 4 < 0x1_0000_0000
    ensures ReadMessageSpec([Framed(m)] + rest) == Reassembled(Ok(m), 1)
  {
    var frames := [Framed(m)] + rest;
    assert frames[0] == Framed(m);
    assert Framed(m)[4..|m| + 4] == m;
    SingleFrame(frames);
  }

  /** The accounted stream of a container split after `cut` payload bytes. */
  function Shifted(m: seq<byte>, cut: nat): (s: seq<byte>)
    requires cut < |m|
    ensures |s| == |m|
    ensures s[..cut] == m[..cut] && s[cut] == 0
    ensures cut + 4 <= |m| ==> s[cut..cut + 4] == Zeros(4) && s[cut + 4..] == m[cut..|m| - 4]
  {
    (m[..cut] + Zeros(4) + m[cut..])[..|m|]
  }

  /** A container split over two frames after `cut` payload bytes: the prefix
      counted into `offset` puts four zero bytes at `cut` and shifts the rest of
      the payload by four, dropping its last four bytes. When the first part
      already reaches `|m| - 4` bytes, the read stops after it and leaves the
      rest of the payload in the pipe. */
  lemma SplitContainer(m: seq<byte>, cut: nat, rest: seq<Frame>)
    requires cut < |m| && |m| + 4 < Unparsed
    ensures ReadMessageSpec([Framed(m)[..4 + cut], m[cut..]] + rest) ==
      Reassembled(Ok(Shifted(m, cut)), if cut + 4 < |m| then 2 else 1)
  {
    var frames: seq<Frame> := [Framed(m)[..4 + cut], m[cut..]] + rest;
    var f := frames[0];
    assert f[4..] == m[..cut];
    assert Le32At(f, 0) == |m| + 4 by {
      assert f[..4] == Framed(m)[..4];
      SamePrefix(f, Framed(m));
    }
    if cut + 4 < |m| {
      PrefixOne(frames[1..]);
      var later: seq<Frame> := frames[1..];
      assert later[..0] == [] && later[..1] == [m[cut..]];
      LayoutLaterFrames(frames, 2);
      assert (f[4..] + Zeros(4) + m[cut..])[..|m|] == Shifted(m, cut);
    } else {
      LayoutOneFrame(frames);
      assert (f[4..] + Zeros(4))[..|m|] == Shifted(m, cut);
    }
  }

  /** A split container whose payload byte at the cut is not zero is not read
      back as its payload. */
  lemma SplitCorrupts(m: seq<byte>, cut: nat, rest: seq<Frame>)
    requires cut < |m| && |m| + 4 < Unparsed && m[cut] != 0
    ensures ReadMessageSpec([Framed(m)[..4 + cut], m[cut..]] + rest).outcome != Ok(m)
  {
    SplitContainer(m, cut, rest);
  }

  /** A prefix equal to the sentinel leaves `size` unparsed, so the next frame
      is read as a new length prefix; when that prefix is shorter than what was
      already counted, the payload of the second frame lands past the end of
      the buffer. */
  lemma SentinelReparse(f0: Frame, f1: Frame, rest: seq<Frame>)
    requires |f0| >= 4 && Le32At(f0, 0) == Unparsed && |f0| < Unparsed - 4
    ensures |f1| < 4 ==> ReadMessageSpec([f0, f1] + rest) == Reassembled(Err(ShortRead), 2)
    ensures |f1| >= 4 && Le32At(f1, 0) < 4 ==>
      ReadMessageSpec([f0, f1] + rest) == Reassembled(Err(InvalidSize), 2)
    ensures |f1| > 4 && 4 <= Le32At(f1, 0) < |f0| + 4 ==>
      ReadMessageSpec([f0, f1] + rest) == Reassembled(Err(Overrun), 2)
    ensures Absorb(Start, f0).Continue? && Absorb(Start, f0).next.size == Unparsed
    ensures |f1| >= 4 && |f0| + 4 <= Le32At(f1, 0) != Unparsed ==>
      var r := ReadMessageSpec([f0, f1] + rest);
      r.consumed >= 2 && (r.outcome == Err(Timeout) || (r.outcome.Ok? && |r.outcome.value| == Le32At(f1, 0) - 4))
    ensures |f1| == 4 && 4 <= Le32At(f1, 0) < |f0| + 4 ==>
      ReadMessageSpec([f0, f1] + rest) == Reassembled(Ok((f0[4..] + Zeros(4))[..Le32At(f1, 0) - 4]), 2)
  {
    var frames := [f0, f1] + rest;
    AbsorbStart(f0);
    var next := Absorb(Start, f0).next;
    RunContinue(frames, Start, next);
    assert frames[1..][0] == f1;
    if |f1| == 4 && 4 <= Le32At(f1, 0) < |f0| + 4 {
      var kept := (f0[4..] + Zeros(4))[..Le32At(f1, 0) - 4];
      CopyFirst(f0, Unparsed - 4);
      assert Resized(next.buffer, Le32At(f1, 0) - 4) == kept;
      RunFinish(frames[1..], next, kept);
    }
    if |f1| >= 4 && |f0| + 4 <= Le32At(f1, 0) != Unparsed {
      var step := Absorb(next, f1);
      if step.Continue? {
        RunContinue(frames[1..], next, step.next);
        RunKeepsSize(frames[1..][1..], step.next);
      }
    }
  }
}
